=== FILE: README.md ===
# JOSM `Way`: a Dafny model of a way's node sequence

In the JOSM OpenStreetMap editor, a `Way` is an ordered list of nodes. This
project models the part of `Way` that maintains that list:

- the node sequence and its consistency check (`checkNodes`);
- the back references each node keeps to the ways that use it (its *referrers*);
- the mutators: `setNodes`, `addNode`, the insertion `addNode(offs, n)`, `removeNode`, `removeNodes` and `setDeleted`;
- the removal computation (`calculateRemoveNodes`, and `removeDouble`, which collapses consecutive duplicates);
- the read-only queries: `isClosed`, `isArea`, the endpoints, `isInnerNode`, `getNeighbours`, `getNodePairs`, `isOneway` and the oneway-aware endpoints;
- `save` / `load` of the node id list.

Modelling choices:

- Nodes are compared by identity. A node is `NodeId(uid)`, where `uid` is the unique id that `save` writes.
- A Java `null` argument is an `Option`.
- The node attributes the check reads are a function parameter `attrs`: data set, deleted, visible, incomplete, coordinates known.
- The `debug.checkNullCoor` preference is the parameter `checkNullCoor`.
- The tag-boolean parser `OsmUtils.getOsmBoolean` is the parameter `isTrue`.
- Referrer sets are a `map<NodeId, set<WayId>>`. A node missing from the map has no referrers.
- Mutators are pure functions that return an `Outcome`: the state after the call, plus the exception raised, if any. JOSM's `Way` mutators change state first and check integrity afterwards. So a failing `checkNodes` leaves the change in place, and the model keeps that post-state.

Modules, one per file:

- `Types`: entities and wrappers.
- `NodeLists`: filtering, subsequences, `removeDouble`, both as a function and as JOSM's in-place loop.
- `Referrers`: referrer bookkeeping.
- `Integrity`: `checkNodes`.
- `Topology`: the queries.
- `Removal`: `calculateRemoveNodes`.
- `Mutation`: the mutators.
- `Persistence`: `save` / `load`.
- `Scenarios`: concrete ways.

Removing the shared endpoint `N1` from the closed way `[N1, N2, N3, N1]` leaves `[N2, N3]`, not a re-closed `[N2, N3, N2]`: the way is re-closed only when more than 2 nodes survive the removal (Way.java:349-350 and 395-396), and 2 survivors that do not start and end on the same node are kept as they are (`Scenarios.RemoveEndpointOfTriangle`).

## Model

| member | source | states |
|---|---|---|
| NodeLists.Filter | src/org/openstreetmap/josm/data/osm/Way.java:390-392 | the survivors of a selection keep every occurrence of every unselected node (same count) and no selected node, in their original order (a subsequence) |
| NodeLists.RemoveDouble | src/org/openstreetmap/josm/data/osm/Way.java:73-92 | once at least two runs of equal neighbours remain, the result is exactly `Squash(s)`, the list with each entry equal to its predecessor dropped; a list of more than 2 entries of one node comes down to its first 2; lists of up to 2 nodes pass unchanged; the result always keeps the same node set and the same first and last node |
| NodeLists.RemoveDoubleIdempotent | src/org/openstreetmap/josm/data/osm/Way.java:73-92 | collapsing duplicates a second time changes nothing |
| NodeLists.RemoveDoubleInPlace | src/org/openstreetmap/josm/data/osm/Way.java:78-92 | the in-place deletion loop, guarded by `count > 2`, computes exactly the declarative collapse |
| Referrers.AddReferrer | src/org/openstreetmap/josm/data/osm/Way.java:420 | adding a referrer puts the way into that node's set and leaves every other node's set alone |
| Referrers.RemoveReferrer | src/org/openstreetmap/josm/data/osm/Way.java:52 | removing a referrer takes the way out of that node's set and leaves every other node's set alone |
| Referrers.LinkAll | src/org/openstreetmap/josm/data/osm/Way.java:61-64 | after the loop, every node of the sequence, and only those, has gained the way |
| Referrers.UnlinkAll | src/org/openstreetmap/josm/data/osm/Way.java:51-54 | after the loop, every node of the sequence, and only those, has lost the way |
| Integrity.MembershipProblem | src/org/openstreetmap/josm/data/osm/Way.java:548-557 | no problem exactly when every node is in the way's data set and not deleted; a reported node really is foreign or deleted, and every node before it passes |
| Integrity.CoordinateProblem | src/org/openstreetmap/josm/data/osm/Way.java:558-566 | no problem exactly when every complete visible node has coordinates; a reported node really lacks them, and every node before it has them |
| Integrity.CheckNodes | src/org/openstreetmap/josm/data/osm/Way.java:545-569 | the check raises nothing exactly when the nodes are consistent (always for a way outside a data set); a raised problem names a node of the way that really fails; a coordinate problem needs the preference on and is reported only when every node passes the membership test |
| Topology.InnerNodesCoverMembers | src/org/openstreetmap/josm/data/osm/Way.java:520-533 | on a complete way of more than 2 nodes, a member is inner or an endpoint; every inner node is a member; on a closed way every member is inner |
| Topology.IsClosed | src/org/openstreetmap/josm/data/osm/Way.java:481-486 | a way is closed exactly when it has at least 3 nodes and its first node is present and equal to its last |
| Topology.FirstNode | src/org/openstreetmap/josm/data/osm/Way.java:514-518 | the first node is absent exactly for an incomplete or empty way, and is otherwise the entry at position 0 |
| Topology.LastNode | src/org/openstreetmap/josm/data/osm/Way.java:508-512 | the last node is absent exactly for an incomplete or empty way, and is otherwise the entry at the last position |
| Topology.ContainsNode | src/org/openstreetmap/josm/data/osm/Way.java:123-125 | a node is contained exactly when it is not null and sits at some position of the way |
| Topology.IsFirstLastNode | src/org/openstreetmap/josm/data/osm/Way.java:520-524 | a node is a first/last node exactly when it is not null and equals the first or the last node; such a node is contained |
| Topology.IsInnerNode | src/org/openstreetmap/josm/data/osm/Way.java:526-533 | on a complete way of more than 2 nodes, a node is inner exactly when it sits at a position strictly between the ends, or the way is closed and the node is its endpoint; never on shorter or incomplete ways |
| Topology.IsArea | src/org/openstreetmap/josm/data/osm/Way.java:494-506 | the `isArea` scan succeeds exactly on closed ways with two different interior nodes, both different from the shared endpoint |
| Topology.NeighboursFrom | src/org/openstreetmap/josm/data/osm/Way.java:139-146 | from position i on, the loop collects exactly the nodes that sit right before or after an occurrence of the node |
| Topology.Neighbours | src/org/openstreetmap/josm/data/osm/Way.java:134-148 | the neighbours are exactly the nodes adjacent to some occurrence; none for a null node or a node the way does not contain |
| Topology.NodePairs | src/org/openstreetmap/josm/data/osm/Way.java:158-176 | an incomplete way has no segments; otherwise there is one fewer segment than nodes; unsorted segment k joins node k to node k+1, and consecutive segments chain |
| Topology.SortedPairsArePermutations | src/org/openstreetmap/josm/data/osm/Way.java:168-171 | each sorted segment holds the same two nodes as the unsorted one, lower id first |
| Topology.SortPair | src/org/openstreetmap/josm/data/osm/Way.java:169-171 | sorting a pair keeps or swaps its two nodes and puts the lower id first |
| Topology.SegmentsRebuildNodes | src/org/openstreetmap/josm/data/osm/Way.java:150-176 | chaining the unsorted segments of a complete way of at least 2 nodes gives back its node sequence |
| Topology.IsOneway | src/org/openstreetmap/josm/data/osm/Way.java:677-690 | the direction is -1, 0 or 1; it is -1 exactly for the tag value "-1"; it is 1 exactly for any other tag that reads as true; 0 otherwise |
| Topology.FirstNodeOriented | src/org/openstreetmap/josm/data/osm/Way.java:698-700 | the oneway-aware first node is the last node exactly when the caller respects oneway and the tag is "-1", whatever the tag parser says; otherwise it is the first node |
| Topology.LastNodeOriented | src/org/openstreetmap/josm/data/osm/Way.java:708-710 | the oneway-aware last node is the first node exactly when the caller respects oneway and the tag is "-1"; otherwise it is the last node |
| Removal.CalculateRemoveNodes | src/org/openstreetmap/josm/data/osm/Way.java:386-401 | a null selection or an incomplete way gives the nodes unchanged; otherwise the result holds exactly the unselected nodes and is pinned down case by case: re-closed on the first survivor and then squashed when the way was closed on a removed endpoint and more than 2 nodes survive; the survivors without their trailing copy when 2 or 3 survivors start and end on the same node; otherwise the squashed survivors (never cut below 2 entries) |
| Removal.RepairClosure | src/org/openstreetmap/josm/data/osm/Way.java:394-399 | the repair keeps the node set; for a closed way with more than 2 survivors it appends a copy of the first survivor, closing the list again; otherwise it keeps a prefix and drops one entry exactly when 2 or 3 survivors start and end on the same node, the trailing copy |
| Removal.RemainingAfterRemoveNode | src/org/openstreetmap/josm/data/osm/Way.java:342-353 | what `removeNode(n)` installs holds exactly the way's nodes other than n |
| Removal.RemoveNodeAgreesWithRemoveNodes | src/org/openstreetmap/josm/data/osm/Way.java:342-353 | `removeNode(n)`, which tests its endpoints directly, leaves the same nodes as `calculateRemoveNodes({n})`, which uses `isClosed` |
| Mutation.Fire | src/org/openstreetmap/josm/data/osm/Way.java:571-576 | the state is untouched; an exception is raised exactly when the nodes are inconsistent, and it names a node of the way |
| Mutation.SetNodes | src/org/openstreetmap/josm/data/osm/Way.java:47-71 | the way adopts the new sequence (null becomes empty); every new node refers to the way; dropped nodes no longer do; other nodes and other ways are unaffected; no stray referrer appears; an exception is raised exactly when the check fails |
| Mutation.AddNode | src/org/openstreetmap/josm/data/osm/Way.java:411-427 | null is ignored; an incomplete way refuses with IllegalState and stays as it was; otherwise the node is appended, only it gains the way as referrer, the referrer invariants are kept, and the check decides whether a DataIntegrity exception is raised, the only kind raised there |
| Mutation.AddNodeAt | src/org/openstreetmap/josm/data/osm/Way.java:439-460 | as written: null and incomplete as for append; the node always gains the referrer; a bad offset raises IndexOutOfBounds with the sequence unchanged; a good offset puts the node at that position, keeps the rest in order, and raises only the check's DataIntegrity exception, exactly when the check fails |
| Mutation.AppendIsInsertAtEnd | src/org/openstreetmap/josm/data/osm/Way.java:411-460 | appending equals inserting at offset = node count, in every case |
| Mutation.BadOffsetLeavesStrayReferrer | src/org/openstreetmap/josm/data/osm/Way.java:449-451 | a way whose referrers were exact ends up with a node that refers to it although the way does not contain that node |
| Mutation.AddNodeAtChecked | src/org/openstreetmap/josm/data/osm/Way.java:439-460 | corrected insertion: a null node is ignored; an incomplete way raises IllegalState and stays as it was, whatever the offset; a bad offset on a complete way raises IndexOutOfBounds and leaves the whole state unchanged; every other call behaves as written; every node that refers to the way stays one of its nodes |
| Mutation.SetDeleted | src/org/openstreetmap/josm/data/osm/Way.java:463-479 | deleting unlinks the way from all its nodes and undeleting relinks it, even when the check then raises; the deleted flag changes only when the check passes; a failed check raises DataIntegrity |
| Mutation.UndeleteRestoresReferrers | src/org/openstreetmap/josm/data/osm/Way.java:463-479 | for a way whose nodes all refer to it, deleting and then undeleting restores every referrer set |
| Mutation.RemoveNode | src/org/openstreetmap/josm/data/osm/Way.java:337-359 | null or an incomplete way changes nothing; otherwise the way holds exactly what `calculateRemoveNodes({n})` gives and its other fields stay as they were; n is gone and no longer refers to the way; the referrer invariants hold; a data-integrity exception is raised exactly when the new nodes fail the check |
| Mutation.RemoveNodes | src/org/openstreetmap/josm/data/osm/Way.java:366-378 | null or an incomplete way changes nothing; otherwise the way holds what `calculateRemoveNodes` gives and its other fields stay as they were; removed members no longer refer to it; a data-integrity exception is raised exactly when the new nodes fail the check |
| Persistence.Save | src/org/openstreetmap/josm/data/osm/Way.java:289-297 | the exported id list has one entry per node, that node's unique id, in way order |
| Persistence.Resolve | src/org/openstreetmap/josm/data/osm/Way.java:275-282 | resolution succeeds exactly when every id is known, giving the indexed node for each position; otherwise it reports the first unknown id |
| Persistence.Load | src/org/openstreetmap/josm/data/osm/Way.java:261-287 | ids without a data set raise and change nothing; an unknown id raises and changes nothing; otherwise the resolved nodes are installed with setNodes: the old nodes that left lose the way, the new nodes gain it, no other node or way changes, and a failed check raises DataIntegrity |
| Persistence.LoadSaveRoundTrip | src/org/openstreetmap/josm/data/osm/Way.java:261-297 | loading what save exported gives back the same way, with its nodes linked, provided the data set resolves each node's id to that node |
| Scenarios.TriangleIsArea | src/org/openstreetmap/josm/data/osm/Way.java:481-506 | [N1, N2, N3, N1] is closed and an area |
| Scenarios.TriangleNeighbours | src/org/openstreetmap/josm/data/osm/Way.java:134-148 | in that triangle, N1 neighbours exactly N2 and N3 |
| Scenarios.TriangleSegments | src/org/openstreetmap/josm/data/osm/Way.java:158-176 | the triangle's unsorted segments are N1-N2, N2-N3, N3-N1 |
| Scenarios.BackAndForthIsNoArea | src/org/openstreetmap/josm/data/osm/Way.java:494-506 | [N1, N2, N1, N1] is closed but not an area |
| Scenarios.RemoveEndpointOfTriangle | src/org/openstreetmap/josm/data/osm/Way.java:337-401 | removing N1 from the triangle leaves [N2, N3], by both removal paths |
| Scenarios.RemoveKeepsRepeatedNodes | src/org/openstreetmap/josm/data/osm/Way.java:386-401 | removing N4 from [N1, N2, N3, N2, N4] leaves [N1, N2, N3, N2]: both occurrences of N2 survive in place |
| Scenarios.ReversedOneway | src/org/openstreetmap/josm/data/osm/Way.java:698-710 | on the reversed oneway [N1, N2], the oneway-aware first node is N2 and the last is N1 |
| Scenarios.AddToIncompleteWay | src/org/openstreetmap/josm/data/osm/Way.java:415-417 | appending to an incomplete way raises IllegalState and leaves the state as it was |

## Left out

- Locking (`writeLock`/`writeUnlock`): concurrency control with no effect on the single-threaded result.
- Style-cache clearing (`clearCachedStyle`, `clearCachedNodeStyles`): no effect on the node sequence.
- `checkDatasetNotReadOnly`: a guard owned by the data set, which is not part of this model.
- The data set's change notification in `fireNodesChanged`: event delivery to listeners outside the way.
- The bounding box (`getBBox`, `updatePosition`), `getLength`, `getLongestSegmentLength` and `getAngles`: floating-point geometry.
- Constructors, `cloneFrom`, `hasEqualSemanticAttributes`, `toString`, the visitors, `getType`/`getDisplayType` and `keysChangedImpl`: copying and presentation.
- The superclass parts of `load` and `save` (tags, version, flags): `OsmPrimitive` is not part of this model. Only the node id list is modelled. The `IllegalArgumentException` for a non-way record cannot arise, because `Load` takes only id lists.
- `getNodes`, `getNodesCount`, `getNode`, `getNodeId`, `getNodeIds`: plain accessors of the sequence itself.
- `hasIncompleteNodes`, `hasOnlyLocatableNodes`, `isUsable`, `isDrawable`, `isOutsideDownloadArea`, `concernsArea`: each reads node or data-set state beyond the attributes modelled here.
- Mutation.RemoveNode: the `indexOf`/`remove` loop is modelled as a filter of every occurrence, which is what the loop leaves.
- Topology.SortedPairsArePermutations: `Pair.sort` uses the node comparator. The model orders by unique id, because the comparator is not part of this model.
- Referrers.AddReferrer: referrer storage is assumed to behave as a set (adding twice is harmless), because `OsmPrimitive`'s referrer array is not part of this model.
- Mutation.AddNodeAt: a negative offset and an offset past the end both raise the same `IndexOutOfBounds`. The exact exception subclass and message are not modelled.

## Findings

| source | as written | input that shows it | evidently intended | confidence | as-written member | corrected member |
|---|---|---|---|---|---|---|
| src/org/openstreetmap/josm/data/osm/Way.java:449-451 | `addNode(offs, n)` adds the way to `n`'s referrers before the array copy checks the offset | way 7 holding [node 1] with exact referrers; insert node 2 at offset 5: IndexOutOfBounds is raised, the way still holds [node 1], yet node 2 lists way 7 as a referrer | a refused insertion leaves the referrers unchanged, so every node that refers to the way belongs to it | medium; not executed | Mutation.AddNodeAt, Mutation.BadOffsetLeavesStrayReferrer | Mutation.AddNodeAtChecked |

=== FILE: integrity.dfy ===
/** The way's consistency check (`checkNodes`), run after every structural
    change: every node must belong to the way's data set and must not be
    deleted; optionally, every complete visible node must have coordinates. */
module Integrity {
  import opened Types

  /** The offending node and what is wrong with it. */
  datatype Problem =
    | ForeignNode(node: NodeId)
    | DeletedNode(node: NodeId)
    | NullCoordinates(node: NodeId)

  /** A node passes the coordinate check unless it is visible, complete and unlocated. */
  predicate Located(i: NodeInfo)
  {
    i.visible && !i.incomplete ==> i.latLonKnown
  }

  /** The declarative form of the check: what the way's nodes must satisfy for
      the check to raise nothing. */
  ghost predicate NodesConsistent(w: Way, attrs: NodeId -> NodeInfo, checkNullCoor: bool)
  {
    w.dataset.None? ||
    ((forall n :: n in w.nodes ==> attrs(n).dataset == w.dataset && !attrs(n).deleted) &&
     (checkNullCoor ==> forall n :: n in w.nodes ==> Located(attrs(n))))
  }

  /** `p` names a node that really fails the check for data set `ds`. */
  ghost predicate Justified(p: Problem, attrs: NodeId -> NodeInfo, ds: Option<DataSetId>)
  {
    match p
    case ForeignNode(n) => attrs(n).dataset != ds
    case DeletedNode(n) => attrs(n).dataset == ds && attrs(n).deleted
    case NullCoordinates(n) => !Located(attrs(n))
  }

  /** The first loop of the check: data-set membership, then the deleted flag,
      node by node. */
  function MembershipProblem(ns: seq<NodeId>, ds: Option<DataSetId>, attrs: NodeId -> NodeInfo): (r: Option<Problem>)
    ensures r.None? <==> forall n :: n in ns ==> attrs(n).dataset == ds && !attrs(n).deleted
    ensures r.Some? ==> r.value.node in ns && !r.value.NullCoordinates? && Justified(r.value, attrs, ds)
    ensures r.Some? ==>
              exists k ::
                && 0 <= k < |ns| && ns[k] == r.value.node
                && forall j :: 0 <= j < k ==> attrs(ns[j]).dataset == ds && !attrs(ns[j]).deleted
    decreases |ns|
  {
    if ns == [] then None
    else if attrs(ns[0]).dataset != ds then Some(ForeignNode(ns[0]))
    else if attrs(ns[0]).deleted then Some(DeletedNode(ns[0]))
    else
      assert forall n :: n in ns <==> n == ns[0] || n in ns[1..];
      MembershipProblem(ns[1..], ds, attrs)
  }

  /** The second loop of the check: complete visible nodes need coordinates. */
  function CoordinateProblem(ns: seq<NodeId>, attrs: NodeId -> NodeInfo): (r: Option<Problem>)
    ensures r.None? <==> forall n :: n in ns ==> Located(attrs(n))
    ensures r.Some? ==> r.value.NullCoordinates? && r.value.node in ns && !Located(attrs(r.value.node))
    ensures r.Some? ==>
              exists k ::
                && 0 <= k < |ns| && ns[k] == r.value.node
                && forall j :: 0 <= j < k ==> Located(attrs(ns[j]))
    decreases |ns|
  {
    if ns == [] then None
    else if !Located(attrs(ns[0])) then Some(NullCoordinates(ns[0]))
    else
      assert forall n :: n in ns <==> n == ns[0] || n in ns[1..];
      CoordinateProblem(ns[1..], attrs)
  }

  /** `checkNodes`: the first problem found, if any; a coordinate problem is
      reported only once every node has passed the membership loop. A way outside any data set
      is never checked; `checkNullCoor` is the `debug.checkNullCoor` preference. */
  function CheckNodes(w: Way, attrs: NodeId -> NodeInfo, checkNullCoor: bool): (r: Option<Problem>)
    ensures r.None? <==> NodesConsistent(w, attrs, checkNullCoor)
    ensures r.Some? ==> r.value.node in w.nodes && Justified(r.value, attrs, w.dataset)
    ensures r.Some? && r.value.NullCoordinates? ==> checkNullCoor
    ensures r.Some? && r.value.NullCoordinates? ==>
              forall n :: n in w.nodes ==> attrs(n).dataset == w.dataset && !attrs(n).deleted
  {
    if w.dataset.None? then None
    else
      match MembershipProblem(w.nodes, w.dataset, attrs)
      case Some(p) => Some(p)
      case None => if checkNullCoor then CoordinateProblem(w.nodes, attrs) else None
  }
}

=== FILE: mutation.dfy ===
/** The way's mutators. Each returns the state after the call together with
    the exception the call raised, if any: JOSM's `Way` mutators change state
    first and run the integrity check afterwards, so a raised check leaves the
    change in place. */
module Mutation {
  import opened Types
  import opened Referrers
  import opened Integrity
  import opened Removal

  /** One way and the referrer sets of all nodes. */
  datatype World = World(way: Way, refs: RefMap)

  /** The exceptions the modelled operations raise. */
  datatype Failure =
    | IllegalState                    // node added to an incomplete way
    | IndexOutOfBounds                // insertion offset outside 0 .. node count
    | DataIntegrity(problem: Problem) // the post-change integrity check failed
    | DatasetMissing                  // load of node ids into a way outside any data set
    | NodeMissing(uid: int)           // load of an id the data set does not resolve

  /** The state after a call, and the exception it raised, if any. */
  datatype Outcome = Outcome(world: World, thrown: Option<Failure>)

  /** Every node of the way lists the way as a referrer. */
  ghost predicate Linked(st: World)
  {
    forall n :: n in st.way.nodes ==> st.way.key in RefsOf(st.refs, n)
  }

  /** Every node that lists the way as a referrer is a node of the way. */
  ghost predicate Backed(st: World)
  {
    forall n :: st.way.key in RefsOf(st.refs, n) ==> n in st.way.nodes
  }

  /** The referrer sets differ from `before` only in that `n` gained `w`. */
  ghost predicate OnlyGained(before: RefMap, after: RefMap, n: NodeId, w: WayId)
  {
    forall m :: RefsOf(after, m) == if m == n then RefsOf(before, m) + {w} else RefsOf(before, m)
  }

  /** `fireNodesChanged`: the integrity check runs on the current state and its
      verdict is attached; the data set notification is not modelled. */
  function Fire(st: World, attrs: NodeId -> NodeInfo, checkNullCoor: bool): (r: Outcome)
    ensures r.world == st
    ensures r.thrown.None? <==> NodesConsistent(st.way, attrs, checkNullCoor)
    ensures r.thrown.Some? ==> r.thrown.value.DataIntegrity? && r.thrown.value.problem.node in st.way.nodes
  {
    match CheckNodes(st.way, attrs, checkNullCoor)
    case None => Outcome(st, None)
    case Some(p) => Outcome(st, Some(DataIntegrity(p)))
  }

  /** `setNodes`: drop the way from the referrers of its old nodes, adopt the
      new sequence (an absent one becomes empty), add the way to the referrers
      of the new nodes, then run the integrity check. */
  function SetNodes(st: World, s: Option<seq<NodeId>>, attrs: NodeId -> NodeInfo, checkNullCoor: bool): (r: Outcome)
    ensures r.world.way == st.way.(nodes := if s.None? then [] else s.value)
    ensures Linked(r.world)
    ensures Backed(st) ==> Backed(r.world)
    ensures forall n :: n in st.way.nodes && n !in r.world.way.nodes ==> st.way.key !in RefsOf(r.world.refs, n)
    ensures forall n :: n !in st.way.nodes && n !in r.world.way.nodes ==> RefsOf(r.world.refs, n) == RefsOf(st.refs, n)
    ensures OthersUnchanged(st.refs, r.world.refs, st.way.key)
    ensures r.thrown.None? <==> NodesConsistent(r.world.way, attrs, checkNullCoor)
    ensures r.thrown.Some? ==> r.thrown.value.DataIntegrity?
  {
    var w := st.way.key;
    var unlinked := UnlinkAll(st.refs, st.way.nodes, w);
    var adopted := if s.None? || s.value == [] then [] else s.value;
    var linked := LinkAll(unlinked, adopted, w);
    Fire(World(st.way.(nodes := adopted), linked), attrs, checkNullCoor)
  }

  /** `addNode(n)`: append. An absent node is ignored; an incomplete way
      refuses with IllegalState and is left as it was. */
  function AddNode(st: World, n: Option<NodeId>, attrs: NodeId -> NodeInfo, checkNullCoor: bool): (r: Outcome)
    ensures n.None? ==> r == Outcome(st, None)
    ensures n.Some? && st.way.incomplete ==> r == Outcome(st, Some(IllegalState))
    ensures n.Some? && !st.way.incomplete ==>
      && |r.world.way.nodes| == |st.way.nodes| + 1
      && r.world.way.nodes[..|st.way.nodes|] == st.way.nodes
      && r.world.way.nodes[|st.way.nodes|] == n.value
      && r.world.way == st.way.(nodes := r.world.way.nodes)
      && OnlyGained(st.refs, r.world.refs, n.value, st.way.key)
      && (Linked(st) ==> Linked(r.world))
      && (Backed(st) ==> Backed(r.world))
      && (r.thrown.None? <==> NodesConsistent(r.world.way, attrs, checkNullCoor))
      && (r.thrown.Some? ==> r.thrown.value.DataIntegrity?)
  {
    if n.None? then Outcome(st, None)
    else if st.way.incomplete then Outcome(st, Some(IllegalState))
    else
      var refs := AddReferrer(st.refs, n.value, st.way.key);
      var nodes := st.way.nodes + [n.value];
      assert nodes[..|st.way.nodes|] == st.way.nodes;
      Fire(World(st.way.(nodes := nodes), refs), attrs, checkNullCoor)
  }

  /** `addNode(offs, n)` as written: the way is added to the referrers of `n`
      before the offset is checked, so a bad offset raises IndexOutOfBounds
      with the node sequence unchanged but the referrer already added. */
  function AddNodeAt(st: World, offs: int, n: Option<NodeId>, attrs: NodeId -> NodeInfo, checkNullCoor: bool): (r: Outcome)
    ensures n.None? ==> r == Outcome(st, None)
    ensures n.Some? && st.way.incomplete ==> r == Outcome(st, Some(IllegalState))
    ensures n.Some? && !st.way.incomplete ==>
      OnlyGained(st.refs, r.world.refs, n.value, st.way.key)
    ensures n.Some? && !st.way.incomplete && !(0 <= offs <= |st.way.nodes|) ==>
      r.world.way == st.way && r.thrown == Some(IndexOutOfBounds)
    ensures n.Some? && !st.way.incomplete && 0 <= offs <= |st.way.nodes| ==>
      && |r.world.way.nodes| == |st.way.nodes| + 1
      && r.world.way.nodes[offs] == n.value
      && r.world.way.nodes[..offs] + r.world.way.nodes[offs + 1..] == st.way.nodes
      && r.world.way == st.way.(nodes := r.world.way.nodes)
      && (Linked(st) ==> Linked(r.world))
      && (Backed(st) ==> Backed(r.world))
      && (r.thrown.None? <==> NodesConsistent(r.world.way, attrs, checkNullCoor))
      && (r.thrown.Some? ==> r.thrown.value.DataIntegrity?)
  {
    if n.None? then Outcome(st, None)
    else if st.way.incomplete then Outcome(st, Some(IllegalState))
    else
      var refs := AddReferrer(st.refs, n.value, st.way.key);
      if !(0 <= offs <= |st.way.nodes|) then Outcome(World(st.way, refs), Some(IndexOutOfBounds))
      else
        var nodes := Insert(st.way.nodes, offs, n.value);
        Fire(World(st.way.(nodes := nodes), refs), attrs, checkNullCoor)
  }

  /** `s` with `x` placed at position `offs`, the rest shifted right. */
  function Insert(s: seq<NodeId>, offs: nat, x: NodeId): (r: seq<NodeId>)
    requires offs <= |s|
    ensures |r| == |s| + 1 && r[offs] == x
    ensures r[..offs] + r[offs + 1..] == s
    ensures forall m :: m in r <==> m == x || m in s
  {
    var r := s[..offs] + [x] + s[offs..];
    assert r[..offs] == s[..offs] && r[offs + 1..] == s[offs..];
    assert s[..offs] + s[offs..] == s;
    r
  }

  /** Appending is inserting at the end. */
  lemma AppendIsInsertAtEnd(st: World, n: Option<NodeId>, attrs: NodeId -> NodeInfo, checkNullCoor: bool)
    ensures AddNode(st, n, attrs, checkNullCoor) == AddNodeAt(st, |st.way.nodes|, n, attrs, checkNullCoor)
  {
    if n.Some? && !st.way.incomplete {
      var prior := st.way.nodes;
      assert Insert(prior, |prior|, n.value) == prior + [n.value];
    }
  }

  /** `addNode(offs, n)` with the offset checked before any referrer is added:
      a refused insertion leaves the whole state unchanged. */
  function AddNodeAtChecked(st: World, offs: int, n: Option<NodeId>, attrs: NodeId -> NodeInfo, checkNullCoor: bool): (r: Outcome)
    ensures r.thrown == Some(IllegalState) || r.thrown == Some(IndexOutOfBounds) ==> r.world == st
    ensures n.Some? && !st.way.incomplete && !(0 <= offs <= |st.way.nodes|) ==> r == Outcome(st, Some(IndexOutOfBounds))
    ensures Backed(st) ==> Backed(r.world)
    ensures !(n.Some? && !st.way.incomplete && !(0 <= offs <= |st.way.nodes|)) ==> r == AddNodeAt(st, offs, n, attrs, checkNullCoor)
    ensures n.None? ==> r == Outcome(st, None)
    ensures n.Some? && st.way.incomplete ==> r == Outcome(st, Some(IllegalState))
  {
    if n.Some? && !st.way.incomplete && !(0 <= offs <= |st.way.nodes|) then Outcome(st, Some(IndexOutOfBounds))
    else AddNodeAt(st, offs, n, attrs, checkNullCoor)
  }

  /** A concrete case of the as-written insertion: one way [A] with no
      referrers, asked to insert B at offset 5. The call raises
      IndexOutOfBounds, keeps [A], and yet B now lists the way as referrer. */
  lemma BadOffsetLeavesStrayReferrer()
    ensures var a, b := NodeId(1), NodeId(2);
      var st := World(Way(7, [a], false, false, None, None), map[a := {7}]);
      var attrs := (n: NodeId) => NodeInfo(None, false, true, false, true);
      var r := AddNodeAt(st, 5, Some(b), attrs, true);
      && Backed(st)
      && r.thrown == Some(IndexOutOfBounds)
      && r.world.way.nodes == [a]
      && 7 in RefsOf(r.world.refs, b)
      && !Backed(r.world)
  {
    var a, b := NodeId(1), NodeId(2);
    var st := World(Way(7, [a], false, false, None, None), map[a := {7}]);
    assert forall n :: 7 in RefsOf(st.refs, n) ==> n == a;
  }

  /** `setDeleted`: deleting drops the way from the referrers of its nodes,
      undeleting adds it back; the flag itself is set only after the integrity
      check passes, while the referrer change stays either way. */
  function SetDeleted(st: World, deleted: bool, attrs: NodeId -> NodeInfo, checkNullCoor: bool): (r: Outcome)
    ensures r.world.way.nodes == st.way.nodes
    ensures r.thrown.None? <==> NodesConsistent(st.way, attrs, checkNullCoor)
    ensures r.world.way == if r.thrown.None? then st.way.(deleted := deleted) else st.way
    ensures forall n ::
              RefsOf(r.world.refs, n) ==
                (if n !in st.way.nodes then RefsOf(st.refs, n)
                 else if deleted then RefsOf(st.refs, n) - {st.way.key}
                 else RefsOf(st.refs, n) + {st.way.key})
    ensures !deleted ==> Linked(r.world)
    ensures deleted ==> forall n :: n in st.way.nodes ==> st.way.key !in RefsOf(r.world.refs, n)
    ensures r.thrown.Some? ==> r.thrown.value.DataIntegrity?
  {
    var w := st.way.key;
    var refs := if deleted then UnlinkAll(st.refs, st.way.nodes, w) else LinkAll(st.refs, st.way.nodes, w);
    var fired := Fire(World(st.way, refs), attrs, checkNullCoor);
    if fired.thrown.None? then Outcome(World(st.way.(deleted := deleted), refs), None)
    else fired
  }

  /** Deleting and then undeleting a way whose nodes all list it restores every
      referrer set. */
  lemma UndeleteRestoresReferrers(st: World, attrs: NodeId -> NodeInfo, checkNullCoor: bool)
    requires Linked(st)
    ensures var gone := SetDeleted(st, true, attrs, checkNullCoor).world;
      forall n :: RefsOf(SetDeleted(gone, false, attrs, checkNullCoor).world.refs, n) == RefsOf(st.refs, n)
  {
    var gone := SetDeleted(st, true, attrs, checkNullCoor).world;
    var back := SetDeleted(gone, false, attrs, checkNullCoor).world;
    forall n
      ensures RefsOf(back.refs, n) == RefsOf(st.refs, n)
    {
      if n in st.way.nodes {
        assert st.way.key in RefsOf(st.refs, n);
      }
    }
  }

  /** `removeNode(n)`: remove every occurrence of `n`, repair the closure,
      collapse duplicates and install the result with `setNodes`. Ignored for
      an absent node or an incomplete way. */
  function RemoveNode(st: World, n: Option<NodeId>, attrs: NodeId -> NodeInfo, checkNullCoor: bool): (r: Outcome)
    ensures n.None? || st.way.incomplete ==> r == Outcome(st, None)
    ensures n.Some? && !st.way.incomplete ==>
      && r.world.way.nodes == CalculateRemoveNodes(st.way, Some({n.value}))
      && n.value !in r.world.way.nodes
      && (n.value in st.way.nodes ==> st.way.key !in RefsOf(r.world.refs, n.value))
      && r.world.way == st.way.(nodes := r.world.way.nodes)
      && Linked(r.world) && (Backed(st) ==> Backed(r.world))
      && OthersUnchanged(st.refs, r.world.refs, st.way.key)
      && (r.thrown.None? <==> NodesConsistent(r.world.way, attrs, checkNullCoor))
      && (r.thrown.Some? ==> r.thrown.value.DataIntegrity?)
  {
    if n.None? || st.way.incomplete then Outcome(st, None)
    else
      RemoveNodeAgreesWithRemoveNodes(st.way, n.value);
      SetNodes(st, Some(RemainingAfterRemoveNode(st.way, n.value)), attrs, checkNullCoor)
  }

  /** `removeNodes(selection)`: install exactly what `calculateRemoveNodes`
      computes. Ignored for an absent selection or an incomplete way. */
  function RemoveNodes(st: World, selection: Option<set<NodeId>>, attrs: NodeId -> NodeInfo, checkNullCoor: bool): (r: Outcome)
    ensures selection.None? || st.way.incomplete ==> r == Outcome(st, None)
    ensures selection.Some? && !st.way.incomplete ==>
      && r.world.way.nodes == CalculateRemoveNodes(st.way, selection)
      && (forall n :: n in selection.value && n in st.way.nodes ==> st.way.key !in RefsOf(r.world.refs, n))
      && r.world.way == st.way.(nodes := r.world.way.nodes)
      && Linked(r.world) && (Backed(st) ==> Backed(r.world))
      && OthersUnchanged(st.refs, r.world.refs, st.way.key)
      && (r.thrown.None? <==> NodesConsistent(r.world.way, attrs, checkNullCoor))
      && (r.thrown.Some? ==> r.thrown.value.DataIntegrity?)
  {
    if selection.None? || st.way.incomplete then Outcome(st, None)
    else SetNodes(st, Some(CalculateRemoveNodes(st.way, selection)), attrs, checkNullCoor)
  }
}

=== FILE: node_lists.dfy ===
/** Pure transforms of node sequences: order-preserving filtering and the
    collapse of consecutive duplicate nodes (`removeDouble`). */
module NodeLists {
  import opened Types

  /** `a` is obtained from `b` by deleting entries, keeping the order of the rest. */
  ghost predicate IsSubsequence(a: seq<NodeId>, b: seq<NodeId>)
    decreases |b|
  {
    if a == [] then true
    else if b == [] then false
    else (a[0] == b[0] && IsSubsequence(a[1..], b[1..])) || IsSubsequence(a, b[1..])
  }

  /** No two neighbouring entries are the same node. */
  ghost predicate NoAdjacentDuplicates(s: seq<NodeId>)
  {
    forall i :: 0 <= i < |s| - 1 ==> s[i] != s[i + 1]
  }

  lemma {:induction false} SubsequenceReflexive(s: seq<NodeId>)
    ensures IsSubsequence(s, s)
    decreases |s|
  {
    if s != [] {
      SubsequenceReflexive(s[1..]);
    }
  }

  lemma {:induction false} SubsequenceElements(a: seq<NodeId>, b: seq<NodeId>)
    requires IsSubsequence(a, b)
    ensures forall x :: x in a ==> x in b
    decreases |b|
  {
    if a != [] {
      if a[0] == b[0] && IsSubsequence(a[1..], b[1..]) {
        SubsequenceElements(a[1..], b[1..]);
        assert forall x :: x in a ==> x == a[0] || x in a[1..];
      } else {
        SubsequenceElements(a, b[1..]);
      }
    }
  }

  lemma {:induction false} SubsequenceTransitive(a: seq<NodeId>, b: seq<NodeId>, c: seq<NodeId>)
    requires IsSubsequence(a, b) && IsSubsequence(b, c)
    ensures IsSubsequence(a, c)
    decreases |c|
  {
    if a == [] {
    } else if b[0] == c[0] && IsSubsequence(b[1..], c[1..]) {
      if a[0] == b[0] && IsSubsequence(a[1..], b[1..]) {
        SubsequenceTransitive(a[1..], b[1..], c[1..]);
      } else {
        SubsequenceTransitive(a, b[1..], c[1..]);
      }
    } else {
      SubsequenceTransitive(a, b, c[1..]);
    }
  }

  /** Every prefix of a sequence is a subsequence of it. */
  lemma {:induction false} PrefixIsSubsequence(s: seq<NodeId>, k: nat)
    requires k <= |s|
    ensures IsSubsequence(s[..k], s)
    decreases |s|
  {
    if k == 0 {
    } else {
      PrefixIsSubsequence(s[1..], k - 1);
      assert s[..k][1..] == s[1..][..k - 1];
    }
  }

  /** A subsequence of `b + [x]` loses its last entry and becomes a subsequence of `b`. */
  lemma {:induction false} DropLastSubsequence(a: seq<NodeId>, b: seq<NodeId>, x: NodeId)
    requires |a| > 0 && IsSubsequence(a, b + [x])
    ensures IsSubsequence(a[..|a| - 1], b)
    decreases |b|
  {
    var bx := b + [x];
    if b == [] {
      assert bx[1..] == [];
    } else {
      assert bx[1..] == b[1..] + [x];
      if a[0] == bx[0] && IsSubsequence(a[1..], bx[1..]) {
        if |a| > 1 {
          DropLastSubsequence(a[1..], b[1..], x);
          assert a[..|a| - 1][1..] == a[1..][..|a[1..]| - 1];
        }
      } else {
        DropLastSubsequence(a, b[1..], x);
      }
    }
  }

  /** The entries of `s` that are not in `sel`, in their original order: every
      occurrence of an unselected node is kept, every selected one dropped. */
  function Filter(s: seq<NodeId>, sel: set<NodeId>): (r: seq<NodeId>)
    ensures forall x :: x in r <==> x in s && x !in sel
    ensures forall x {:trigger multiset(r)[x]} :: multiset(r)[x] == if x in sel then 0 else multiset(s)[x]
    ensures IsSubsequence(r, s)
    decreases |s|
  {
    if s == [] then []
    else
      var rest := Filter(s[1..], sel);
      assert forall x :: x in s <==> x == s[0] || x in s[1..];
      assert multiset(s) == multiset{s[0]} + multiset(s[1..]) by {
        assert s == [s[0]] + s[1..];
      }
      if s[0] in sel then rest
      else
        assert ([s[0]] + rest)[1..] == rest;
        [s[0]] + rest
  }

  /** The scan of `removeDouble` from the current position on. `prev` is the
      last node kept so far (none at the start), `rest` the entries not yet
      scanned and `kept` how many entries lie before `rest`. The scan stops as
      soon as the whole list is down to 2 entries. */
  function Collapse(prev: Option<NodeId>, rest: seq<NodeId>, kept: nat): (r: seq<NodeId>)
    ensures |r| <= |rest|
    ensures kept + |rest| >= 2 ==> kept + |r| >= 2
    ensures IsSubsequence(r, rest)
    decreases |rest|
  {
    if rest == [] || kept + |rest| <= 2 then
      SubsequenceReflexive(rest);
      rest
    else if prev == Some(rest[0]) then
      Collapse(prev, rest[1..], kept)
    else
      var tail := Collapse(Some(rest[0]), rest[1..], kept + 1);
      assert ([rest[0]] + tail)[1..] == tail;
      [rest[0]] + tail
  }

  /** The list with every entry that repeats the entry before it dropped, so
      that each run of one node shrinks to a single entry. */
  function Squash(s: seq<NodeId>): (r: seq<NodeId>)
    decreases |s|
  {
    if |s| <= 1 then s
    else if s[0] == s[1] then Squash(s[1..])
    else [s[0]] + Squash(s[1..])
  }

  /** `removeDouble`: drops every entry equal to the entry before it, but
      never shrinks the list below 2 entries. Once at least two runs remain
      the result is exactly `Squash(s)`; a longer list of one repeated node
      comes down to its first 2 entries. */
  function RemoveDouble(s: seq<NodeId>): (r: seq<NodeId>)
    ensures |Squash(s)| >= 2 ==> r == Squash(s)
    ensures |Squash(s)| < 2 && |s| > 2 ==> r == s[..2]
    ensures |s| <= 2 ==> r == s
    ensures |s| >= 2 ==> 2 <= |r| <= |s|
    ensures IsSubsequence(r, s)
    ensures forall x :: x in r <==> x in s
    ensures |s| > 0 ==> |r| > 0 && r[0] == s[0] && r[|r| - 1] == s[|s| - 1]
    ensures |r| > 2 ==> NoAdjacentDuplicates(r)
  {
    CollapseFromStart(s);
    CollapseIsSquash(s);
    Collapse(None, s, 0)
  }

  /** The scan from `prev` on, without the 2-entry floor: entries equal to the
      one before them (with `prev` before the first) are dropped. */
  ghost function Runs(prev: Option<NodeId>, rest: seq<NodeId>): (r: seq<NodeId>)
    decreases |rest|
  {
    if rest == [] then []
    else if prev == Some(rest[0]) then Runs(prev, rest[1..])
    else [rest[0]] + Runs(Some(rest[0]), rest[1..])
  }

  lemma {:induction false} RunsAfter(p: NodeId, rest: seq<NodeId>)
    ensures [p] + Runs(Some(p), rest) == Squash([p] + rest)
    decreases |rest|
  {
    var s := [p] + rest;
    if rest != [] {
      assert s[1..] == rest;
      assert rest == [rest[0]] + rest[1..];
      if p == rest[0] {
        RunsAfter(p, rest[1..]);
      } else {
        RunsAfter(rest[0], rest[1..]);
      }
    }
  }

  lemma {:induction false} RunsShort(prev: Option<NodeId>, rest: seq<NodeId>)
    ensures |Runs(prev, rest)| <= |rest|
    ensures |Runs(prev, rest)| == |rest| ==> Runs(prev, rest) == rest
    decreases |rest|
  {
    if rest != [] {
      if prev == Some(rest[0]) {
        RunsShort(prev, rest[1..]);
      } else {
        RunsShort(Some(rest[0]), rest[1..]);
        assert [rest[0]] + rest[1..] == rest;
      }
    }
  }

  /** The floor never bites while at least 2 entries would remain anyway. */
  lemma {:induction false} CollapseIsRuns(prev: Option<NodeId>, rest: seq<NodeId>, kept: nat)
    requires kept + |Runs(prev, rest)| >= 2
    ensures Collapse(prev, rest, kept) == Runs(prev, rest)
    decreases |rest|
  {
    RunsShort(prev, rest);
    if rest == [] || kept + |rest| <= 2 {
    } else if prev == Some(rest[0]) {
      CollapseIsRuns(prev, rest[1..], kept);
    } else {
      CollapseIsRuns(Some(rest[0]), rest[1..], kept + 1);
    }
  }

  /** After a kept `p`, a tail made of `p` only comes down to one entry. */
  lemma {:induction false} CollapseUniform(p: NodeId, rest: seq<NodeId>)
    requires |rest| >= 1 && Runs(Some(p), rest) == []
    ensures rest[0] == p && Collapse(Some(p), rest, 1) == [p]
    decreases |rest|
  {
    if |rest| > 1 {
      CollapseUniform(p, rest[1..]);
    }
  }

  lemma CollapseIsSquash(s: seq<NodeId>)
    ensures |Squash(s)| >= 2 ==> Collapse(None, s, 0) == Squash(s)
    ensures |Squash(s)| < 2 && |s| > 2 ==> Collapse(None, s, 0) == s[..2]
  {
    if s != [] {
      RunsAfter(s[0], s[1..]);
      assert s == [s[0]] + s[1..];
      assert Runs(None, s) == Squash(s);
      if |Squash(s)| >= 2 {
        CollapseIsRuns(None, s, 0);
      } else if |s| > 2 {
        CollapseUniform(s[0], s[1..]);
        assert s[..2] == [s[0], s[1]];
      }
    }
  }

  /** What a scan from the start of `s` keeps: the same nodes, the same first
      and last entry, and no adjacent duplicates once more than 2 remain. */
  lemma CollapseFromStart(s: seq<NodeId>)
    ensures var r := Collapse(None, s, 0);
            && (forall x :: x in r <==> x in s)
            && (|s| > 0 ==> |r| > 0 && r[0] == s[0] && r[|r| - 1] == s[|s| - 1])
            && (|r| > 2 ==> NoAdjacentDuplicates(r))
  {
    var r := Collapse(None, s, 0);
    SubsequenceElements(r, s);
    if |s| > 2 {
      CollapseCovers(s[0], s[1..], 1);
      CollapseKeepsLast(s[0], s[1..], 1);
      assert s == [s[0]] + s[1..];
    }
    CollapseSeparates(None, s, 0);
  }

  lemma {:induction false} CollapseCovers(p: NodeId, rest: seq<NodeId>, kept: nat)
    ensures forall x :: x in rest ==> x == p || x in Collapse(Some(p), rest, kept)
    decreases |rest|
  {
    if rest == [] || kept + |rest| <= 2 {
    } else if Some(p) == Some(rest[0]) {
      CollapseCovers(p, rest[1..], kept);
      assert forall x :: x in rest ==> x == rest[0] || x in rest[1..];
    } else {
      CollapseCovers(rest[0], rest[1..], kept + 1);
      assert forall x :: x in rest ==> x == rest[0] || x in rest[1..];
    }
  }

  lemma {:induction false} CollapseKeepsLast(p: NodeId, rest: seq<NodeId>, kept: nat)
    ensures var c := Collapse(Some(p), rest, kept);
            (if c == [] then p else c[|c| - 1]) == (if rest == [] then p else rest[|rest| - 1])
    decreases |rest|
  {
    if rest == [] || kept + |rest| <= 2 {
    } else if Some(p) == Some(rest[0]) {
      CollapseKeepsLast(p, rest[1..], kept);
    } else {
      CollapseKeepsLast(rest[0], rest[1..], kept + 1);
    }
  }

  lemma {:induction false} CollapseSeparates(prev: Option<NodeId>, rest: seq<NodeId>, kept: nat)
    ensures var c := Collapse(prev, rest, kept);
            kept + |c| > 2 ==>
              NoAdjacentDuplicates(c) && (prev.Some? && c != [] ==> c[0] != prev.value)
    decreases |rest|
  {
    if rest == [] || kept + |rest| <= 2 {
    } else if prev == Some(rest[0]) {
      CollapseSeparates(prev, rest[1..], kept);
    } else {
      CollapseSeparates(Some(rest[0]), rest[1..], kept + 1);
      var tail := Collapse(Some(rest[0]), rest[1..], kept + 1);
      var c := [rest[0]] + tail;
      if kept + |c| > 2 {
        forall i | 0 <= i < |c| - 1
          ensures c[i] != c[i + 1]
        {
          if i > 0 {
            assert c[i] == tail[i - 1] && c[i + 1] == tail[i];
          }
        }
      }
    }
  }

  /** A scan over a list with no adjacent duplicates removes nothing. */
  lemma {:induction false} CollapseFixes(prev: Option<NodeId>, rest: seq<NodeId>, kept: nat)
    requires NoAdjacentDuplicates(rest)
    requires prev.Some? && rest != [] ==> rest[0] != prev.value
    ensures Collapse(prev, rest, kept) == rest
    decreases |rest|
  {
    if rest == [] || kept + |rest| <= 2 {
    } else {
      CollapseFixes(Some(rest[0]), rest[1..], kept + 1);
      assert [rest[0]] + rest[1..] == rest;
    }
  }

  /** Applying `removeDouble` twice gives the same list as applying it once. */
  lemma RemoveDoubleIdempotent(s: seq<NodeId>)
    ensures RemoveDouble(RemoveDouble(s)) == RemoveDouble(s)
  {
    var r := RemoveDouble(s);
    if |r| > 2 {
      CollapseFixes(None, r, 0);
    }
  }

  /** One deletion of the loop: the entry at `i` repeats the last kept node. */
  lemma DeleteStep(r: seq<NodeId>, i: nat, last: Option<NodeId>)
    requires i < |r| && |r| > 2 && last == Some(r[i])
    ensures var r' := r[..i] + r[i + 1..];
            r'[..i] + Collapse(last, r'[i..], i) == r[..i] + Collapse(last, r[i..], i)
  {
    var r' := r[..i] + r[i + 1..];
    assert r'[..i] == r[..i];
    assert r'[i..] == r[i + 1..] == r[i..][1..];
  }

  /** One advance of the loop: the entry at `i` differs from the last kept node. */
  lemma KeepStep(r: seq<NodeId>, i: nat, last: Option<NodeId>)
    requires i < |r| && |r| > 2 && last != Some(r[i])
    ensures r[..i + 1] + Collapse(Some(r[i]), r[i + 1..], i + 1) == r[..i] + Collapse(last, r[i..], i)
  {
    assert r[..i + 1] == r[..i] + [r[i]];
    assert r[i..][1..] == r[i + 1..];
  }

  /** The loop ends with the whole list scanned or with at most 2 entries left. */
  lemma ExitStep(r: seq<NodeId>, i: nat, last: Option<NodeId>)
    requires i <= |r| && (i == |r| || |r| <= 2)
    ensures r[..i] + Collapse(last, r[i..], i) == r
  {
    assert r[..i] + r[i..] == r;
  }

  /** The loop of `removeDouble` as written: walk the list with the last kept
      node in hand, deleting in place every entry equal to it, for as long as
      more than 2 entries remain. */
  method RemoveDoubleInPlace(s: seq<NodeId>) returns (r: seq<NodeId>)
    ensures r == RemoveDouble(s)
  {
    ghost var target := RemoveDouble(s);
    r := s;
    var last: Option<NodeId> := None;
    var count := |r|;
    var i := 0;
    assert r[..0] + Collapse(None, r[0..], 0) == target by {
      assert r[..0] == [] && r[0..] == s;
    }
    while i < count && count > 2
      invariant 0 <= i <= count == |r|
      invariant i == 0 ==> last == None
      invariant i > 0 ==> last == Some(r[i - 1])
      invariant r[..i] + Collapse(last, r[i..], i) == target
      decreases count - i
    {
      var n := r[i];
      if last == Some(n) {
        DeleteStep(r, i, last);
        ghost var before := r;
        r := r[..i] + r[i + 1..];
        assert r[i - 1] == before[i - 1];
        count := count - 1;
      } else {
        KeepStep(r, i, last);
        last := Some(n);
        i := i + 1;
      }
    }
    ExitStep(r, i, last);
  }
}

=== FILE: persistence.dfy ===
/** Export and import of a way's node ids (`save` / `load`), restricted to the
    node sequence. */
module Persistence {
  import opened Types
  import opened Integrity
  import opened Referrers
  import opened Mutation

  /** The unique ids of `ns`, in order. */
  function Uids(ns: seq<NodeId>): (ids: seq<int>)
    ensures |ids| == |ns|
    ensures forall k :: 0 <= k < |ids| ==> ids[k] == ns[k].uid
  {
    if ns == [] then [] else [ns[0].uid] + Uids(ns[1..])
  }

  /** `save`: the unique id of every node, in way order. */
  function Save(w: Way): (ids: seq<int>)
    ensures |ids| == |w.nodes|
    ensures forall k :: 0 <= k < |ids| ==> ids[k] == w.nodes[k].uid
  {
    Uids(w.nodes)
  }

  /** The lookup loop of `load`: resolve every id through the data set's index,
      stopping at the first id it does not know. */
  function Resolve(ids: seq<int>, index: map<int, NodeId>): (r: Result<seq<NodeId>, int>)
    ensures r.Ok? <==> forall id :: id in ids ==> id in index
    ensures r.Ok? ==>
              && |r.value| == |ids|
              && (forall k :: 0 <= k < |ids| ==> ids[k] in index && r.value[k] == index[ids[k]])
    ensures r.Err? ==>
              exists k ::
                && 0 <= k < |ids| && ids[k] == r.error && r.error !in index
                && (forall j :: 0 <= j < k ==> ids[j] in index)
    decreases |ids|
  {
    if ids == [] then Ok([])
    else if ids[0] !in index then
      MissingHead(ids, index);
      Err(ids[0])
    else
      assert forall id :: id in ids <==> id == ids[0] || id in ids[1..];
      match Resolve(ids[1..], index)
      case Err(e) =>
        var k :| && 0 <= k < |ids[1..]| && ids[1..][k] == e && e !in index
                 && (forall j :: 0 <= j < k ==> ids[1..][j] in index);
        assert ids[k + 1] == e && forall j :: 0 <= j < k + 1 ==> ids[j] in index;
        Err(e)
      case Ok(rest) => Ok([index[ids[0]]] + rest)
  }

  lemma MissingHead(ids: seq<int>, index: map<int, NodeId>)
    requires ids != [] && ids[0] !in index
    ensures exists id :: id in ids && id !in index
  {
    var h := ids[0];
    assert h in ids && h !in index;
  }

  /** `load` (node ids only): ids need a data set to resolve in; every id must
      resolve to a node; the resolved nodes are installed with `setNodes`. A
      failed lookup raises before anything changes. */
  function Load(st: World, ids: seq<int>, index: map<int, NodeId>,
                attrs: NodeId -> NodeInfo, checkNullCoor: bool): (r: Outcome)
    ensures |ids| > 0 && st.way.dataset.None? ==> r == Outcome(st, Some(DatasetMissing))
    ensures (|ids| == 0 || st.way.dataset.Some?) && (exists id :: id in ids && id !in index) ==>
      r.world == st && r.thrown.Some? && r.thrown.value.NodeMissing? &&
      r.thrown.value.uid in ids && r.thrown.value.uid !in index
    ensures (|ids| == 0 || st.way.dataset.Some?) && (forall id :: id in ids ==> id in index) ==>
      && |r.world.way.nodes| == |ids|
      && (forall k :: 0 <= k < |ids| ==> ids[k] in index && r.world.way.nodes[k] == index[ids[k]])
      && r.world.way == st.way.(nodes := r.world.way.nodes)
      && Linked(r.world)
      && (Backed(st) ==> Backed(r.world))
      && OthersUnchanged(st.refs, r.world.refs, st.way.key)
      && (forall n :: n in st.way.nodes && n !in r.world.way.nodes ==> st.way.key !in RefsOf(r.world.refs, n))
      && (forall n :: n !in st.way.nodes && n !in r.world.way.nodes ==> RefsOf(r.world.refs, n) == RefsOf(st.refs, n))
      && (r.thrown.None? <==> NodesConsistent(r.world.way, attrs, checkNullCoor))
      && (r.thrown.Some? ==> r.thrown.value.DataIntegrity?)
  {
    if |ids| > 0 && st.way.dataset.None? then Outcome(st, Some(DatasetMissing))
    else
      match Resolve(ids, index)
      case Err(id) => Outcome(st, Some(NodeMissing(id)))
      case Ok(ns) => SetNodes(st, Some(ns), attrs, checkNullCoor)
  }

  /** Loading what `save` exported gives the way back unchanged, provided the
      way's data set (needed unless the way is empty) finds every node of the
      way under its own unique id. */
  lemma LoadSaveRoundTrip(st: World, index: map<int, NodeId>, attrs: NodeId -> NodeInfo, checkNullCoor: bool)
    requires st.way.dataset.Some? || st.way.nodes == []
    requires forall n :: n in st.way.nodes ==> n.uid in index && index[n.uid] == n
    ensures var r := Load(st, Save(st.way), index, attrs, checkNullCoor);
      r.world.way == st.way && Linked(r.world) &&
      (r.thrown.None? <==> NodesConsistent(st.way, attrs, checkNullCoor))
  {
    var ids := Save(st.way);
    forall id | id in ids
      ensures id in index
    {
      var k :| 0 <= k < |ids| && ids[k] == id;
      assert st.way.nodes[k] in st.way.nodes;
    }
    var r := Load(st, ids, index, attrs, checkNullCoor);
    assert r.world.way.nodes == st.way.nodes by {
      forall k | 0 <= k < |ids|
        ensures r.world.way.nodes[k] == st.way.nodes[k]
      {
        assert st.way.nodes[k] in st.way.nodes;
      }
    }
  }
}

=== FILE: referrers.dfy ===
/** The node-to-way back references: adding and dropping one way from the
    referrer sets of one node or of every node of a sequence. */
module Referrers {
  import opened Types

  /** `n.addReferrer(w)`: referrer sets behave as sets, so adding twice is harmless. */
  function AddReferrer(refs: RefMap, n: NodeId, w: WayId): (r: RefMap)
    ensures forall m :: RefsOf(r, m) == if m == n then RefsOf(refs, m) + {w} else RefsOf(refs, m)
  {
    refs[n := RefsOf(refs, n) + {w}]
  }

  /** `n.removeReferrer(w)`. */
  function RemoveReferrer(refs: RefMap, n: NodeId, w: WayId): (r: RefMap)
    ensures forall m :: RefsOf(r, m) == if m == n then RefsOf(refs, m) - {w} else RefsOf(refs, m)
  {
    if n in refs then refs[n := refs[n] - {w}] else refs
  }

  /** Calls `addReferrer(w)` on every node of `ns`, in order. */
  function LinkAll(refs: RefMap, ns: seq<NodeId>, w: WayId): (r: RefMap)
    ensures forall m :: RefsOf(r, m) == if m in ns then RefsOf(refs, m) + {w} else RefsOf(refs, m)
    decreases |ns|
  {
    if ns == [] then refs
    else
      assert forall m :: m in ns <==> m == ns[0] || m in ns[1..];
      LinkAll(AddReferrer(refs, ns[0], w), ns[1..], w)
  }

  /** Calls `removeReferrer(w)` on every node of `ns`, in order. */
  function UnlinkAll(refs: RefMap, ns: seq<NodeId>, w: WayId): (r: RefMap)
    ensures forall m :: RefsOf(r, m) == if m in ns then RefsOf(refs, m) - {w} else RefsOf(refs, m)
    decreases |ns|
  {
    if ns == [] then refs
    else
      assert forall m :: m in ns <==> m == ns[0] || m in ns[1..];
      UnlinkAll(RemoveReferrer(refs, ns[0], w), ns[1..], w)
  }

  /** The referrer sets agree on every way other than `w`. */
  ghost predicate OthersUnchanged(before: RefMap, after: RefMap, w: WayId)
  {
    forall n, v :: v != w ==> (v in RefsOf(after, n) <==> v in RefsOf(before, n))
  }
}

=== FILE: removal.dfy ===
/** The sequence a removal leaves behind (`calculateRemoveNodes`, and the
    computation inside `removeNode`): filter, repair the closure, then collapse
    consecutive duplicates. */
module Removal {
  import opened Types
  import opened NodeLists
  import opened Topology

  /** The closure repair applied to the survivors of a removal. A way closed on
      a removed endpoint is re-closed on its first survivor, but only when more
      than 2 nodes survive; otherwise 2 or 3 survivors whose first and last
      coincide lose the trailing copy. */
  function RepairClosure(copy: seq<NodeId>, closed: bool): (r: seq<NodeId>)
    ensures forall x :: x in r <==> x in copy
    ensures closed && |copy| > 2 ==> |r| == |copy| + 1 && r[..|copy|] == copy && r[|copy|] == r[0]
    ensures !(closed && |copy| > 2) ==> |copy| - 1 <= |r| <= |copy| && r == copy[..|r|]
    ensures !(closed && |copy| > 2) ==> (|r| < |copy| <==> 2 <= |copy| <= 3 && copy[0] == copy[|copy| - 1])
  {
    var i := |copy|;
    if closed && i > 2 then
      assert (copy + [copy[0]])[..i] == copy;
      copy + [copy[0]]
    else if 2 <= i <= 3 && copy[0] == copy[i - 1] then
      assert copy == copy[..i - 1] + [copy[0]];
      copy[..i - 1]
    else
      assert copy[..i] == copy;
      copy
  }

  /** The way was closed and its shared endpoint is among the removed nodes. */
  predicate ClosedOnRemoved(w: Way, sel: set<NodeId>)
  {
    IsClosed(w) && w.nodes[|w.nodes| - 1] in sel
  }

  /** The survivors of removing `sel` from the way, before any repair. */
  function Survivors(w: Way, sel: set<NodeId>): (f: seq<NodeId>)
    ensures forall x :: x in f <==> x in w.nodes && x !in sel
    ensures forall x {:trigger multiset(f)[x]} :: multiset(f)[x] == if x in sel then 0 else multiset(w.nodes)[x]
    ensures IsSubsequence(f, w.nodes)
  {
    Filter(w.nodes, sel)
  }

  /** `calculateRemoveNodes`: nothing is removed for an absent selection or an
      incomplete way. Otherwise the result holds exactly the unselected nodes of
      the way; it is re-closed on the first survivor when the way was closed on
      a removed endpoint and more than 2 nodes survive, and in every other case
      it lists nodes of the way in their original order. Exactly: the
      survivors (every occurrence of every unselected node, in order) are
      re-closed or lose a trailing copy of their first node as described, and
      then each run of one node shrinks to a single entry, except that the
      list is never cut below 2 entries by that last step. */
  function CalculateRemoveNodes(w: Way, selection: Option<set<NodeId>>): (r: seq<NodeId>)
    ensures selection.None? || w.incomplete ==> r == w.nodes
    ensures selection.Some? && !w.incomplete ==>
      forall x :: x in r <==> x in w.nodes && x !in selection.value
    ensures selection.Some? && !w.incomplete && ClosedOnRemoved(w, selection.value)
              && |Survivors(w, selection.value)| > 2 ==>
      |r| >= 2 && r[0] == r[|r| - 1] == Survivors(w, selection.value)[0]
      && IsSubsequence(r[..|r| - 1], w.nodes)
    ensures selection.Some? && !w.incomplete
              && !(ClosedOnRemoved(w, selection.value) && |Survivors(w, selection.value)| > 2) ==>
      IsSubsequence(r, w.nodes)
    ensures selection.Some? && !w.incomplete ==>
      var f := Survivors(w, selection.value);
      if ClosedOnRemoved(w, selection.value) && |f| > 2 then
        r == if |Squash(f + [f[0]])| >= 2 then Squash(f + [f[0]]) else [f[0], f[0]]
      else if 2 <= |f| <= 3 && f[0] == f[|f| - 1] then
        r == f[..|f| - 1]
      else
        r == if |Squash(f)| >= 2 then Squash(f) else f[..if |f| < 2 then |f| else 2]
  {
    if selection.None? || w.incomplete then w.nodes
    else
      var sel := selection.value;
      var f := Survivors(w, sel);
      var closed := IsClosed(w) && LastNode(w).value in sel;
      var c := RepairClosure(f, closed);
      RepairFacts(w, sel, f, closed);
      RemoveDouble(c)
  }

  lemma RepairFacts(w: Way, sel: set<NodeId>, f: seq<NodeId>, closed: bool)
    requires f == Survivors(w, sel)
    requires closed == ClosedOnRemoved(w, sel)
    ensures var r := RemoveDouble(RepairClosure(f, closed));
      && (forall x :: x in r <==> x in w.nodes && x !in sel)
      && (closed && |f| > 2 ==> |r| >= 2 && r[0] == r[|r| - 1] == f[0] && IsSubsequence(r[..|r| - 1], w.nodes))
      && (!(closed && |f| > 2) ==> IsSubsequence(r, w.nodes))
  {
    var c := RepairClosure(f, closed);
    var r := RemoveDouble(c);
    var i := |f|;
    if closed && i > 2 {
      assert c[0] == f[0] && c[|c| - 1] == f[0];
      assert forall x :: x in c <==> x in f;
      DropLastSubsequence(r, f, f[0]);
      SubsequenceTransitive(r[..|r| - 1], f, w.nodes);
    } else {
      if 2 <= i <= 3 && f[0] == f[i - 1] {
        assert forall x :: x in f <==> x in c by {
          assert f == c + [f[i - 1]];
        }
        PrefixIsSubsequence(f, i - 1);
      } else {
        SubsequenceReflexive(f);
      }
      SubsequenceTransitive(c, f, w.nodes);
      SubsequenceTransitive(r, c, w.nodes);
    }
  }

  /** The nodes `removeNode(n)` installs: all occurrences of `n` filtered out,
      with the closure test done on the endpoints directly. */
  function RemainingAfterRemoveNode(w: Way, n: NodeId): (r: seq<NodeId>)
    ensures forall x :: x in r <==> x in w.nodes && x != n
  {
    var closed := LastNode(w) == Some(n) && FirstNode(w) == Some(n);
    RemoveDouble(RepairClosure(Filter(w.nodes, {n}), closed))
  }

  /** `removeNode(n)` leaves the same nodes as `calculateRemoveNodes({n})`,
      although it tests closure on the endpoints rather than with `isClosed`. */
  lemma RemoveNodeAgreesWithRemoveNodes(w: Way, n: NodeId)
    requires !w.incomplete
    ensures RemainingAfterRemoveNode(w, n) == CalculateRemoveNodes(w, Some({n}))
  {
    var endpoints := LastNode(w) == Some(n) && FirstNode(w) == Some(n);
    var closed := IsClosed(w) && LastNode(w).value in {n};
    if endpoints != closed {
      var s := w.nodes;
      assert |s| <= 2 && s[0] == n && s[|s| - 1] == n;
      assert forall x :: x in s ==> x == n;
      assert Filter(s, {n}) == [];
    }
  }
}

=== FILE: scenarios.dfy ===
/** Concrete ways and what the model says about them. */
module Scenarios {
  import opened Types
  import opened NodeLists
  import opened Topology
  import opened Removal
  import opened Mutation

  const N1 := NodeId(1)
  const N2 := NodeId(2)
  const N3 := NodeId(3)
  const N4 := NodeId(4)

  function Plain(nodes: seq<NodeId>): (w: Way)
  {
    Way(10, nodes, false, false, None, None)
  }

  /** The triangle [N1, N2, N3, N1] is closed and an area. */
  lemma TriangleIsArea()
    ensures IsClosed(Plain([N1, N2, N3, N1]))
    ensures IsArea(Plain([N1, N2, N3, N1]))
  {
    var w := Plain([N1, N2, N3, N1]);
    assert TwoDistinctInterior(w.nodes, 1) by {
      assert w.nodes[1] == N2 && w.nodes[2] == N3;
    }
  }

  /** In the triangle, N1 neighbours exactly N2 and N3. */
  lemma TriangleNeighbours()
    ensures Neighbours(Plain([N1, N2, N3, N1]), Some(N1)) == {N2, N3}
  {
    var s := [N1, N2, N3, N1];
    var nb := Neighbours(Plain(s), Some(N1));
    assert AdjacentFrom(s, N1, N2, 0) by { assert s[0] == N1 && s[1] == N2; }
    assert AdjacentFrom(s, N1, N3, 0) by { assert s[3] == N1 && s[2] == N3; }
    forall m | m in nb
      ensures m == N2 || m == N3
    {
      var i :| 0 <= i < 4 && s[i] == N1 &&
        ((i > 0 && s[i - 1] == m) || (i + 1 < 4 && s[i + 1] == m));
      assert i == 0 || i == 3;
    }
  }

  /** The triangle's segments run N1-N2, N2-N3, N3-N1. */
  lemma TriangleSegments()
    ensures NodePairs(Plain([N1, N2, N3, N1]), false) == [Pair(N1, N2), Pair(N2, N3), Pair(N3, N1)]
  {
    var s := [N1, N2, N3, N1];
    var ps := NodePairs(Plain(s), false);
    assert |ps| == 3 && s[1] == N2 && s[2] == N3 && s[3] == N1;
    assert ps[0] == Pair(N1, N2) && ps[1] == Pair(N2, N3) && ps[2] == Pair(N3, N1);
  }

  /** [N1, N2, N1, N1] is closed but goes back and forth, so it is no area. */
  lemma BackAndForthIsNoArea()
    ensures IsClosed(Plain([N1, N2, N1, N1]))
    ensures !IsArea(Plain([N1, N2, N1, N1]))
  {
    var s := [N1, N2, N1, N1];
    assert s[1] == N2 && s[2] == N1;
  }

  /** Removing the shared endpoint N1 from [N1, N2, N3, N1] leaves only 2
      survivors, so the way is not re-closed: the result is [N2, N3]. */
  lemma RemoveEndpointOfTriangle()
    ensures CalculateRemoveNodes(Plain([N1, N2, N3, N1]), Some({N1})) == [N2, N3]
    ensures RemainingAfterRemoveNode(Plain([N1, N2, N3, N1]), N1) == [N2, N3]
  {
    var w := Plain([N1, N2, N3, N1]);
    assert Filter([N1], {N1}) == [];
    assert Filter([N3, N1], {N1}) == [N3] by { assert [N3, N1][1..] == [N1]; }
    assert Filter([N2, N3, N1], {N1}) == [N2, N3] by { assert [N2, N3, N1][1..] == [N3, N1]; }
    assert Survivors(w, {N1}) == [N2, N3] by { assert w.nodes[1..] == [N2, N3, N1]; }
    RemoveNodeAgreesWithRemoveNodes(w, N1);
  }

  /** Removing the end N4 from [N1, N2, N3, N2, N4] keeps both occurrences
      of N2, in place: the result is [N1, N2, N3, N2]. */
  lemma RemoveKeepsRepeatedNodes()
    ensures CalculateRemoveNodes(Plain([N1, N2, N3, N2, N4]), Some({N4})) == [N1, N2, N3, N2]
  {
    var w := Plain([N1, N2, N3, N2, N4]);
    var f := [N1, N2, N3, N2];
    SurvivorsWithoutN4();
    SquashKeepsAlternation();
    assert !ClosedOnRemoved(w, {N4});
    assert !(2 <= |f| <= 3) && |Squash(f)| >= 2;
  }

  lemma SurvivorsWithoutN4()
    ensures Survivors(Plain([N1, N2, N3, N2, N4]), {N4}) == [N1, N2, N3, N2]
  {
    assert Filter([N4], {N4}) == [];
    assert Filter([N2, N4], {N4}) == [N2] by { assert [N2, N4][1..] == [N4]; }
    assert Filter([N3, N2, N4], {N4}) == [N3, N2] by { assert [N3, N2, N4][1..] == [N2, N4]; }
    assert Filter([N2, N3, N2, N4], {N4}) == [N2, N3, N2] by { assert [N2, N3, N2, N4][1..] == [N3, N2, N4]; }
    assert [N1, N2, N3, N2, N4][1..] == [N2, N3, N2, N4];
  }

  lemma SquashKeepsAlternation()
    ensures Squash([N1, N2, N3, N2]) == [N1, N2, N3, N2]
  {
    assert Squash([N3, N2]) == [N3, N2] by { assert [N3, N2][1..] == [N2]; }
    assert Squash([N2, N3, N2]) == [N2, N3, N2] by { assert [N2, N3, N2][1..] == [N3, N2]; }
    assert [N1, N2, N3, N2][1..] == [N2, N3, N2];
  }

  /** On the reversed oneway [N1, N2] the oneway-aware endpoints swap. */
  lemma ReversedOneway(isTrue: string -> bool)
    ensures FirstNodeOriented(Way(10, [N1, N2], false, false, None, Some("-1")), true, isTrue) == Some(N2)
    ensures LastNodeOriented(Way(10, [N1, N2], false, false, None, Some("-1")), true, isTrue) == Some(N1)
  {
  }

  /** Adding a node to an incomplete way fails and changes nothing. */
  lemma AddToIncompleteWay(refs: RefMap, attrs: NodeId -> NodeInfo)
    ensures var st := World(Way(10, [N1], true, false, None, None), refs);
      AddNode(st, Some(N2), attrs, true) == Outcome(st, Some(IllegalState))
  {
  }
}

=== FILE: topology.dfy ===
/** Read-only questions about a way's node sequence: endpoints, closure, area,
    inner nodes, neighbours, segments and the oneway direction. */
module Topology {
  import opened Types

  /** `isClosed`: a complete way of at least 3 nodes that ends where it starts. */
  function IsClosed(w: Way): (r: bool)
    ensures r <==> |w.nodes| >= 3 && FirstNode(w).Some? && FirstNode(w) == LastNode(w)
  {
    !w.incomplete && |w.nodes| >= 3 && w.nodes[|w.nodes| - 1] == w.nodes[0]
  }

  /** `firstNode()`: absent for an incomplete or empty way. */
  function FirstNode(w: Way): (r: Option<NodeId>)
    ensures r.None? <==> w.incomplete || w.nodes == []
    ensures r.Some? ==> r.value in w.nodes
    ensures r.Some? ==> r.value == w.nodes[0]
  {
    if w.incomplete || |w.nodes| == 0 then None else Some(w.nodes[0])
  }

  /** `lastNode()`: absent for an incomplete or empty way. */
  function LastNode(w: Way): (r: Option<NodeId>)
    ensures r.None? <==> w.incomplete || w.nodes == []
    ensures r.Some? ==> r.value in w.nodes
    ensures r.Some? ==> r.value == w.nodes[|w.nodes| - 1]
  {
    if w.incomplete || |w.nodes| == 0 then None else Some(w.nodes[|w.nodes| - 1])
  }

  /** `containsNode`: false for an absent node. */
  function ContainsNode(w: Way, n: Option<NodeId>): (r: bool)
    ensures r <==> n.Some? && exists i :: 0 <= i < |w.nodes| && w.nodes[i] == n.value
  {
    n.Some? && n.value in w.nodes
  }

  /** `isFirstLastNode`: the node is one of the two endpoints. */
  function IsFirstLastNode(w: Way, n: Option<NodeId>): (r: bool)
    ensures r <==> n.Some? && (n == FirstNode(w) || n == LastNode(w))
    ensures r ==> ContainsNode(w, n)
  {
    !(w.incomplete || |w.nodes| == 0) && (n == Some(w.nodes[0]) || n == Some(w.nodes[|w.nodes| - 1]))
  }

  /** `isInnerNode`: on a way of more than 2 nodes, a node strictly between the
      ends; a node that is both first and last (a closed way) counts as inner. */
  function IsInnerNode(w: Way, n: Option<NodeId>): (r: bool)
    ensures r <==>
      && !w.incomplete && |w.nodes| > 2 && n.Some?
      && ((IsClosed(w) && n == FirstNode(w)) || exists i :: 0 < i < |w.nodes| - 1 && w.nodes[i] == n.value)
  {
    var s := w.nodes;
    if w.incomplete || |s| <= 2 then false
    else if n == Some(s[0]) && n == Some(s[|s| - 1]) then true
    else
      assert n.Some? ==> (n.value in s[1..|s| - 1] <==> exists i :: 0 < i < |s| - 1 && s[i] == n.value) by {
        if n.Some? && n.value in s[1..|s| - 1] {
          var j :| 0 <= j < |s| - 2 && s[1..|s| - 1][j] == n.value;
          assert s[j + 1] == n.value;
        }
        if n.Some? && exists i :: 0 < i < |s| - 1 && s[i] == n.value {
          var i :| 0 < i < |s| - 1 && s[i] == n.value;
          assert s[1..|s| - 1][i - 1] == n.value;
        }
      }
      n.Some? && n.value in s[1..|s| - 1]
  }

  /** On a way of more than 2 nodes every member is an endpoint or inner, and
      every inner node is a member. On a closed way every member is inner. */
  lemma InnerNodesCoverMembers(w: Way, n: Option<NodeId>)
    requires !w.incomplete && |w.nodes| > 2
    ensures ContainsNode(w, n) ==> IsInnerNode(w, n) || IsFirstLastNode(w, n)
    ensures IsInnerNode(w, n) ==> ContainsNode(w, n)
    ensures IsClosed(w) && ContainsNode(w, n) ==> IsInnerNode(w, n)
  {
    var s := w.nodes;
    if n.Some? && n.value in s {
      var i :| 0 <= i < |s| && s[i] == n.value;
      if 0 < i < |s| - 1 {
        assert s[1..|s| - 1][i - 1] == n.value;
      }
    }
    if IsInnerNode(w, n) && !(n == Some(s[0]) && n == Some(s[|s| - 1])) {
      var j :| 0 <= j < |s[1..|s| - 1]| && s[1..|s| - 1][j] == n.value;
      assert s[j + 1] == n.value;
    }
  }

  /** The scan of `isArea` over the interior positions `i .. |s|-2`: remember
      the first interior node that differs from the endpoint, and succeed on a
      later one that differs from both. */
  function AreaScan(s: seq<NodeId>, i: nat, distinct: Option<NodeId>): (r: bool)
    requires |s| > 0
    decreases |s| - i
  {
    if i + 1 >= |s| then false
    else if distinct.None? && s[i] != s[0] then AreaScan(s, i + 1, Some(s[i]))
    else if distinct.Some? && s[i] != s[0] && s[i] != distinct.value then true
    else AreaScan(s, i + 1, distinct)
  }

  /** `isArea`: exactly a closed way with two different interior nodes, both
      different from the shared endpoint (so at least 4 nodes). */
  function IsArea(w: Way): (r: bool)
    ensures r <==> IsClosed(w) && TwoDistinctInterior(w.nodes, 1)
  {
    if |w.nodes| >= 4 && IsClosed(w) then
      AreaScanSearching(w.nodes, 1);
      AreaScan(w.nodes, 1, None)
    else if IsClosed(w) then
      ShortWayHasNoTwoInterior(w.nodes);
      false
    else
      false
  }

  /** Fewer than 4 nodes leave at most one interior position. */
  lemma ShortWayHasNoTwoInterior(s: seq<NodeId>)
    requires 0 < |s| < 4
    ensures !TwoDistinctInterior(s, 1)
  {
  }

  /** Among the interior positions from `lo` on there are two different nodes,
      both different from the endpoint `s[0]`. */
  ghost predicate TwoDistinctInterior(s: seq<NodeId>, lo: nat)
    requires |s| > 0
  {
    exists p, q :: lo <= p < |s| - 1 && lo <= q < |s| - 1 && s[p] != s[0] && s[q] != s[0] && s[p] != s[q]
  }

  lemma {:induction false} AreaScanFound(s: seq<NodeId>, i: nat, d: NodeId)
    requires |s| > 0 && d != s[0]
    ensures AreaScan(s, i, Some(d)) <==> exists q :: i <= q < |s| - 1 && s[q] != s[0] && s[q] != d
    decreases |s| - i
  {
    if i + 1 < |s| {
      AreaScanFound(s, i + 1, d);
    }
  }

  lemma {:induction false} AreaScanSearching(s: seq<NodeId>, i: nat)
    requires |s| > 0
    ensures AreaScan(s, i, None) <==> TwoDistinctInterior(s, i)
    decreases |s| - i
  {
    if i + 1 >= |s| {
    } else if s[i] != s[0] {
      AreaScanFound(s, i + 1, s[i]);
      if TwoDistinctInterior(s, i) {
        var p, q :| i <= p < |s| - 1 && i <= q < |s| - 1 && s[p] != s[0] && s[q] != s[0] && s[p] != s[q];
        if s[p] != s[i] {
          assert i + 1 <= p;
        } else {
          assert i + 1 <= q;
        }
      }
    } else {
      AreaScanSearching(s, i + 1);
      if TwoDistinctInterior(s, i) {
        var p, q :| i <= p < |s| - 1 && i <= q < |s| - 1 && s[p] != s[0] && s[q] != s[0] && s[p] != s[q];
        assert i + 1 <= p && i + 1 <= q;
      }
    }
  }

  /** All positions `lo <= i < |s|` at which `n` occurs next to `m`. */
  ghost predicate AdjacentFrom(s: seq<NodeId>, n: NodeId, m: NodeId, lo: nat)
  {
    exists i :: lo <= i < |s| && s[i] == n && ((i > 0 && s[i - 1] == m) || (i + 1 < |s| && s[i + 1] == m))
  }

  /** The loop of `getNeighbours` from position `i` on. */
  function NeighboursFrom(s: seq<NodeId>, n: NodeId, i: nat): (r: set<NodeId>)
    requires i <= |s|
    ensures forall m :: m in r <==> AdjacentFrom(s, n, m, i)
    decreases |s| - i
  {
    if i == |s| then {}
    else
      var here := if s[i] != n then {}
                  else (if i > 0 then {s[i - 1]} else {}) + (if i + 1 < |s| then {s[i + 1]} else {});
      var later := NeighboursFrom(s, n, i + 1);
      assert forall m :: AdjacentFrom(s, n, m, i) <==> m in here || AdjacentFrom(s, n, m, i + 1) by {
        forall m | AdjacentFrom(s, n, m, i)
          ensures m in here || AdjacentFrom(s, n, m, i + 1)
        {
          var k :| i <= k < |s| && s[k] == n && ((k > 0 && s[k - 1] == m) || (k + 1 < |s| && s[k + 1] == m));
          if k > i {
            assert AdjacentFrom(s, n, m, i + 1);
          }
        }
      }
      here + later
  }

  /** `getNeighbours`: every node next to some occurrence of `n`; empty for an
      absent node or one the way does not contain. */
  function Neighbours(w: Way, n: Option<NodeId>): (r: set<NodeId>)
    ensures forall m :: m in r <==> n.Some? && AdjacentFrom(w.nodes, n.value, m, 0)
    ensures !ContainsNode(w, n) ==> r == {}
  {
    if n.None? then {} else NeighboursFrom(w.nodes, n.value, 0)
  }

  /** A segment of a way: two nodes in way order, or sorted. */
  datatype Pair = Pair(a: NodeId, b: NodeId)

  /** `Pair.sort`: swap the two nodes when the second comes first in node order
      (ordered here by unique id). */
  function SortPair(p: Pair): (r: Pair)
    ensures r == p || r == Pair(p.b, p.a)
    ensures r.a.uid <= r.b.uid
  {
    if p.b.uid < p.a.uid then Pair(p.b, p.a) else p
  }

  function Orient(p: Pair, sort: bool): (r: Pair)
  {
    if sort then SortPair(p) else p
  }

  /** The loop of `getNodePairs` over a node sequence. */
  function Segments(s: seq<NodeId>, sort: bool): (r: seq<Pair>)
    ensures |r| == if |s| < 2 then 0 else |s| - 1
    ensures forall k :: 0 <= k < |r| ==> r[k] == Orient(Pair(s[k], s[k + 1]), sort)
    decreases |s|
  {
    if |s| < 2 then []
    else [Orient(Pair(s[0], s[1]), sort)] + Segments(s[1..], sort)
  }

  /** `getNodePairs`: one segment per pair of consecutive nodes, none for an
      incomplete way; unsorted segments chain end to start. */
  function NodePairs(w: Way, sort: bool): (r: seq<Pair>)
    ensures w.incomplete ==> r == []
    ensures !w.incomplete ==> |r| == if |w.nodes| < 2 then 0 else |w.nodes| - 1
    ensures !sort ==> forall k :: 0 <= k < |r| ==> r[k] == Pair(w.nodes[k], w.nodes[k + 1])
    ensures !sort ==> forall k :: 0 <= k < |r| - 1 ==> r[k].b == r[k + 1].a
  {
    if w.incomplete then []
    else
      var r := Segments(w.nodes, sort);
      assert !sort ==> forall k :: 0 <= k < |r| - 1 ==> r[k].b == r[k + 1].a by {
        if !sort {
          forall k | 0 <= k < |r| - 1
            ensures r[k].b == r[k + 1].a
          {
            assert r[k] == Pair(w.nodes[k], w.nodes[k + 1]);
            assert r[k + 1] == Pair(w.nodes[k + 1], w.nodes[k + 2]);
          }
        }
      }
      r
  }

  /** Each sorted segment holds the same two nodes as the unsorted segment at
      the same position, the lower unique id first. */
  lemma SortedPairsArePermutations(w: Way)
    ensures |NodePairs(w, true)| == |NodePairs(w, false)|
    ensures forall k :: 0 <= k < |NodePairs(w, true)| ==>
      var p, q := NodePairs(w, true)[k], NodePairs(w, false)[k];
      (p == q || p == Pair(q.b, q.a)) && p.a.uid <= p.b.uid
  {
    var sorted, plain := NodePairs(w, true), NodePairs(w, false);
    forall k | 0 <= k < |sorted|
      ensures (sorted[k] == plain[k] || sorted[k] == Pair(plain[k].b, plain[k].a)) && sorted[k].a.uid <= sorted[k].b.uid
    {
      assert sorted[k] == SortPair(Pair(w.nodes[k], w.nodes[k + 1]));
      assert plain[k] == Pair(w.nodes[k], w.nodes[k + 1]);
    }
  }

  /** The node at the start of the first segment followed by the end of every segment. */
  function PathOf(ps: seq<Pair>): (r: seq<NodeId>)
  {
    if ps == [] then [] else [ps[0].a] + Ends(ps)
  }

  function Ends(ps: seq<Pair>): (r: seq<NodeId>)
  {
    if ps == [] then [] else [ps[0].b] + Ends(ps[1..])
  }

  lemma {:induction false} EndsOfSegments(s: seq<NodeId>)
    requires |s| >= 1
    ensures Ends(Segments(s, false)) == s[1..]
    decreases |s|
  {
    if |s| >= 2 {
      EndsOfSegments(s[1..]);
      assert Segments(s, false)[1..] == Segments(s[1..], false);
    }
  }

  /** The unsorted segments of a complete way of at least 2 nodes give back its
      node sequence. */
  lemma SegmentsRebuildNodes(w: Way)
    requires !w.incomplete && |w.nodes| >= 2
    ensures PathOf(NodePairs(w, false)) == w.nodes
  {
    EndsOfSegments(w.nodes);
  }

  /** `isOneway`: -1 exactly for the tag value "-1", 1 when the tag reads as
      true (`isTrue` stands for the tag-boolean parser), 0 otherwise. */
  function IsOneway(w: Way, isTrue: string -> bool): (r: int)
    ensures r == -1 || r == 0 || r == 1
    ensures r == -1 <==> w.oneway == Some("-1")
    ensures r == 1 <==> w.oneway.Some? && w.oneway.value != "-1" && isTrue(w.oneway.value)
  {
    match w.oneway
    case None => 0
    case Some(tag) => if tag == "-1" then -1 else if isTrue(tag) then 1 else 0
  }

  /** `firstNode(respectOneway)`: the last node exactly for a reversed oneway
      ("-1") when asked to respect it, whatever the tag parser says; the
      plain first node otherwise. */
  function FirstNodeOriented(w: Way, respectOneway: bool, isTrue: string -> bool): (r: Option<NodeId>)
    ensures r == if respectOneway && w.oneway == Some("-1") then LastNode(w) else FirstNode(w)
  {
    if !respectOneway || IsOneway(w, isTrue) != -1 then FirstNode(w) else LastNode(w)
  }

  /** `lastNode(respectOneway)`: the mirror image of `FirstNodeOriented`. */
  function LastNodeOriented(w: Way, respectOneway: bool, isTrue: string -> bool): (r: Option<NodeId>)
    ensures r == if respectOneway && w.oneway == Some("-1") then FirstNode(w) else LastNode(w)
  {
    if !respectOneway || IsOneway(w, isTrue) != -1 then LastNode(w) else FirstNode(w)
  }
}

=== FILE: types.dfy ===
/** Values shared by every part of the model of a JOSM way: node identities,
    node attributes, the way record itself and the node-to-way referrer map. */
module Types {

  /** A value that may be absent; stands for a Java reference that may be null. */
  datatype Option<+T> = None | Some(value: T)

  /** Either a computed value or the reason it could not be computed. */
  datatype Result<+T, +E> = Ok(value: T) | Err(error: E)

  /** A node, known by identity. `uid` is the unique id the node is saved
      under and looked up by. */
  datatype NodeId = NodeId(uid: int)

  /** The identity under which a way is recorded in its nodes' referrer sets. */
  type WayId = int

  /** The identity of a data set (the containing graph). */
  type DataSetId = int

  /** The attributes of a node that the way's integrity check reads. */
  datatype NodeInfo = NodeInfo(
    dataset: Option<DataSetId>,
    deleted: bool,
    visible: bool,
    incomplete: bool,
    latLonKnown: bool)

  /** A way: its ordered node sequence plus the flags its operations consult.
      `oneway` is the value of the way's "oneway" tag, if any. */
  datatype Way = Way(
    key: WayId,
    nodes: seq<NodeId>,
    incomplete: bool,
    deleted: bool,
    dataset: Option<DataSetId>,
    oneway: Option<string>)

  /** For each node, the set of ways that list it as a member. A node that is
      not a key has no referrers. */
  type RefMap = map<NodeId, set<WayId>>

  function RefsOf(refs: RefMap, n: NodeId): (r: set<WayId>)
  {
    if n in refs then refs[n] else {}
  }
}
